=== FILE: README.md ===
# AVI header reader and GPU admission check

This project models the header side of a small AVI movie toolkit, in Dafny.

Two copies of an `AVI` reader open a movie and decode its headers:
- the 56-byte main header at offset 32;
- the 76-byte stream header at offset 108.

Every field is a little-endian int32, except the two four-letter stream tags. The reader also infers the stream's time-per-frame in microseconds from its rate and scale. `verify_headers` then compares four pairs of fields between the two headers:
- frame count;
- time-per-frame;
- pixel dimensions;
- buffer size.

`avi_reader.py` reports each comparison as agree or warn. `avi_reader_github.py` also collects a tag for each disagreement, except buffer size. It adds the movie to `bad_files` when any tag was collected. Its conversion loop runs this check on every converted movie.

`nv_reader.py` decides whether a GPU may take a job. It compares temperature, power draw, memory use and utilisation with thresholds, and scans the process table for named programs.

Modules, one per concept:

- `Results`, `AviErrors`: the `Option`/`Result` wrappers and the reader's error cases.
- `LittleEndian`: int32 words and `numpy.frombuffer` on int32, with both round trips.
- `FieldReader`: a file handle as bytes plus a position; `read_values` and `read_letters`.
- `Timing`: the truncating time-per-frame inference `int(1000000/(rate/scale))`.
- `AviHeader`: `read_header`, field by field, under two short-read policies.
- `AviFile`: the whole-file view. It has:
  - `Decode` and an `Encode` that it inverts;
  - the two constructors. One only reads headers (`avi_reader.py`). The other also infers `stream_tpf` (the GitHub copy).
- `HeaderCheck`: `verify_headers` in both versions. It includes the GitHub copy as written and a corrected version.
- `Conversion`: the verification pass of the conversion loop that builds `bad_files`.
- `Gpu`: `GPU.__init__` and `GPU.check`.

### Short reads

`read_values` only prints a warning when the file is shorter than the requested read. It then hands whatever bytes came back to `frombuffer`. So:
- a single-word read at the very end of the file makes `values[0]` fail;
- a partial word makes `frombuffer` fail;
- a short array read can return fewer elements than asked for.

`ShortReads` selects the policy:
- `WarnOnly` is the source as written.
- `Reject` treats any short read as an error. This is how the model opens files.

`ShortFrameSlipsThrough` shows the difference on a concrete file.

### Time-per-frame and buffer size

The inferred time-per-frame truncates toward zero (`int(...)`), so 24 fps gives 41666 µs, not 41667. `Timing.InferTpfTruncates` and `HeaderCheck.TwentyFourFps` state the consequence.

The buffer-size comparison (avi_reader_github.py, lines 132-138) only prints; it never adds a tag (`HeaderCheck.BufferSizeNeverTagged`).

### As written and corrected

`HeaderCheck.CompareHeaders` and `HeaderCheck.VerifyHeadersAsWritten` follow the source's float inference: a zero rate raises, and a zero scale infers 0 and every check runs. The corrected members (`HeaderCheck.Disagreements`, `HeaderCheck.VerifyHeaders`, and the `Conversion` pass built on them) refuse a zero scale and collect tags whatever `v` is.

## Model

| member | source | states |
|---|---|---|
| LittleEndian.Int32FromBytes | avi_reader_github.py:162 | Decoding four bytes as a little-endian int32 gives a value in the int32 range that is negative exactly when the top byte has its high bit set |
| LittleEndian.Int32ToBytes | avi_reader_github.py:162 | Every int32 has a 4-byte encoding that decodes back to it |
| LittleEndian.BytesRoundTrip | avi_reader_github.py:162 | Decoding then re-encoding any 4 bytes gives the same bytes, so the int32 decoding is a bijection |
| LittleEndian.FromBuffer | avi_reader_github.py:162 | `frombuffer(..., int32)` on a whole number of words gives one word per 4 bytes, word i read from bytes 4i..4i+3 |
| LittleEndian.BufferRoundTrip | avi_reader_github.py:162 | Decoding the buffer that encodes a list of int32 words gives the list back |
| LittleEndian.WordInBuffer | avi_reader_github.py:162 | Inside any surrounding bytes, the i-th word of an encoded buffer reads back as the i-th word |
| FieldReader.Seek | avi_reader_github.py:56 | `file.seek(offset)` keeps the file and moves the position to the offset, even past the end |
| FieldReader.Read | avi_reader_github.py:158 | `file.read(n)` returns min(n, bytes left) bytes, exactly those at the position, and advances the position by the count returned |
| FieldReader.ReadValues | avi_reader_github.py:156-165 | Reading `count` int32 words succeeds when the bytes are there and yields the words at the position. A single-value read fails exactly when fewer than 4 bytes remain. As written, an array read fails exactly on a partial word and otherwise returns the whole words available. Under `Reject` every short read is a `ShortRead` error |
| FieldReader.ReadLetters | avi_reader_github.py:168-178 | With the bytes present, reading letters succeeds exactly when every byte is below 128 (`chr` of a negative signed byte fails) and gives those characters. Otherwise it is a `NonAsciiByte` error at the position. Under `Reject` a short read is a `ShortRead` error. Under `WarnOnly` a short read succeeds exactly when the bytes that remain are ASCII, giving the shorter string, and a read from past the end gives the empty string |
| FieldReader.LettersRoundTrip | avi_reader_github.py:168-178 | An ASCII tag written at any position is read back as the same tag, with the cursor moved past it |
| Timing.TruncDiv | avi_reader_github.py:49 | The quotient rounds toward zero: q·d has the sign of n and is within one divisor of n in magnitude |
| Timing.TruncatedQuotientUnique | avi_reader_github.py:49 | At most one integer is the truncated quotient of n by d, so "the" inferred time-per-frame is well defined |
| Timing.InferTpf | avi_reader_github.py:49 | The time-per-frame is defined exactly when rate and scale are both non-zero, and is then the truncated quotient of 1000000·scale by rate |
| Timing.InferTpfCharacterised | avi_reader.py:93-94 | A stored time-per-frame t equals the inference exactly when rate and scale are non-zero and t is the truncated quotient, in both directions |
| Timing.InferTpfAsWritten | avi_reader.py:93 | Under float semantics a zero rate fails, a zero scale with non-zero rate gives 0, and every other input agrees with the model's inference |
| Timing.PositiveRateDivides | avi_reader_github.py:49 | For positive rate and scale the inference coincides with floor division of 1000000·scale by rate |
| Timing.InferTpfTruncates | avi_reader_github.py:49 | 24 fps gives 41666 µs, not the rounded 41667; -24 gives -41666, truncating toward zero and not down |
| AviHeader.ReadWord | avi_reader_github.py:59 | A single-word read succeeds exactly when 4 bytes remain, and gives the word at the position with the position moved by 4 |
| AviHeader.ReadWords | avi_reader_github.py:83-92 | Ten consecutive single-word reads succeed exactly when all 40 bytes are present, and give the words at successive offsets |
| AviHeader.ReadMain | avi_reader_github.py:56-70 | The main header is the ten words from offset 32 in field order (tpf, datarate, padding, flags, frame_number, initial_frames, data_streams, buffer_size, width, height). The read succeeds exactly when they are all present |
| AviHeader.ReadTags | avi_reader_github.py:80-81 | The two four-letter tags are read exactly when their 8 bytes are ASCII and give those characters. Non-ASCII bytes are `NonAsciiByte`. Under `Reject` a short read is `ShortRead` |
| AviHeader.SkipReserved | avi_reader_github.py:72-73 | Reading the four reserved words moves the handle 16 bytes on when they are present, and never changes the file |
| AviHeader.ReadFrame | avi_reader_github.py:93 | The 7-word frame read succeeds as written exactly when the bytes left form whole words, giving as many words as are present. Under `Reject` it also needs all 28 bytes |
| AviHeader.ReadStreamFields | avi_reader_github.py:83-93 | The ten stream words and the frame are read from successive offsets, with success exactly when the bytes allow |
| AviHeader.ReadStream | avi_reader_github.py:77-93 | The stream header read succeeds exactly when its bytes are readable under the policy, and the result is laid out field by field at the position |
| AviHeader.StreamReadableAt108 | avi_reader_github.py:78-93 | At offset 108, `Reject` reads the stream header exactly when the file has at least 184 bytes and ASCII tags. `WarnOnly` also accepts, with ASCII tags, any file of at least 156 bytes whose length is a multiple of 4 |
| AviHeader.ReadHeader | avi_reader_github.py:54-93 | Whole-header read. Success is characterised for both policies. The main header is the words at offset 32 and the stream header is laid out at 108. Under `Reject`, a short file whose tag bytes are ASCII fails with `ShortRead`. Under either policy, a file of at least 184 bytes fails only with `NonAsciiByte`, for bad tags |
| AviFile.StreamLaidOutUnique | avi_reader_github.py:80-93 | Only one stream header can be laid out at a given position, so the decoded header is determined by the bytes |
| AviFile.OpenHeaders | avi_reader.py:33-80 | The `avi_reader.py` constructor with short reads rejected: it succeeds exactly on files of at least 184 bytes with ASCII tags, and yields the decoded headers. Failures are `ShortRead` or `NonAsciiByte` as the bytes dictate. The as-written read is `AviHeader.ReadHeader` under `WarnOnly` |
| AviFile.Open | avi_reader_github.py:40-50 | Constructing the GitHub `AVI` succeeds exactly when the headers decode and the rate and scale are non-zero. `stream_tpf` is the truncated quotient of 1000000·scale by rate. A zero rate or scale is `RateUndefined`. A file shorter than the 184 header bytes whose tag bytes are ASCII fails with `ShortRead`, and a file of at least 184 bytes whose stream tags are not ASCII fails with `NonAsciiByte` |
| AviFile.EncodeMain | avi_reader_github.py:56-70 | Any main header written at offset 32 decodes back to itself, whatever surrounds it |
| AviFile.EncodeStream | avi_reader_github.py:78-93 | Any stream header with ASCII tags and a 7-word frame, written at offset 108, decodes back to itself |
| AviFile.EncodeDecodes | avi_reader_github.py:54-93 | Every well-formed pair of headers, encoded with any lead, reserved words, gap and trailing data, gives a decodable file whose decoding is that pair |
| HeaderCheck.CompareHeaders | avi_reader.py:84-112 | The four checks of `avi_reader.py` run to completion exactly when the rate is non-zero and the frame has 7 words. A zero rate fails first; a short frame fails after that. Each check agrees exactly when its pair of fields is consistent. With a zero scale the time-per-frame check agrees exactly when the stored value is 0 |
| HeaderCheck.Disagreements | avi_reader_github.py:98-129 | Corrected tag collection. It succeeds exactly when rate and scale are non-zero and the frame has 7 words. A zero rate or scale is `RateUndefined`, and otherwise the errors are those of the comparison. Each of the three tags is collected exactly when its check disagrees, in check order, each at most once |
| HeaderCheck.VerifyHeadersAsWritten | avi_reader_github.py:98-146 | As written, including the zero-scale inference of 0, the check runs to the end exactly when the rate is non-zero and the frame has 7 words. With `v=True` each tag is collected exactly when its check disagrees. The time-per-frame tag is compared against the float inference, so at a zero scale it appears exactly when the stored value is not 0. The file is flagged exactly when some tag was collected, and with `v=False` no tag is ever collected |
| HeaderCheck.VerifyHeaders | avi_reader_github.py:142-146 | The corrected check succeeds exactly when rate and scale are non-zero and the frame has 7 words. It collects every disagreement whatever `v` is, and flags the file exactly when the frame counts differ, the time-per-frame is not the inferred one, or the dimensions differ |
| HeaderCheck.VerboseReportsAll | avi_reader_github.py:102-129 | With `v=True` and a non-zero scale, the written check agrees with the corrected one. With a zero scale the corrected check refuses, while the written one runs whenever the rate is non-zero and the frame is full |
| HeaderCheck.QuietMissesDisagreement | avi_reader_github.py:105-108 | A file whose frame counts disagree is flagged by the corrected check but not by the written check called with `v=False` |
| HeaderCheck.BufferSizeNeverTagged | avi_reader_github.py:132-138 | Changing either buffer size never changes the collected tags |
| HeaderCheck.TagsIndependent | avi_reader_github.py:101-129 | Each tag depends only on its own fields: two headers equal on those fields agree on that tag |
| HeaderCheck.OnePerturbationOneTag | avi_reader.py:84-112 | Headers consistent on all four checks agree everywhere and are not flagged. Changing only the main frame count gives exactly the frame-number tag |
| HeaderCheck.TwentyFourFps | avi_reader_github.py:111-119 | At rate 24 and scale 1, with the other fields consistent, a stored 41666 is not tagged and any other stored value, the rounded 41667 included, gets exactly the time-per-frame tag |
| HeaderCheck.ZeroScaleAgreesAsWritten | avi_reader.py:93-94 | With a zero scale, float semantics infer 0 and a stored 0 "agrees" in the as-written comparison, while the corrected check reports the rate as undefined |
| HeaderCheck.ShortFrameSlipsThrough | avi_reader_github.py:156-165 | A concrete 160-byte file is read as written with a one-word frame, so the dimension check cannot index the frame. The model rejects the same file with a `ShortRead` |
| Conversion.BadFiles | avi_reader_github.py:142-146 | The `bad_files` list after a pass: no longer than the batch, and holding the name of every flagged movie |
| Conversion.BadFilesConcat | avi_reader_github.py:290-296 | The list keeps checking order: a pass over two batches in turn reports the first batch's names, then the second's |
| Conversion.BadFilesMembers | avi_reader_github.py:290-302 | A file name is in `bad_files` exactly when some checked movie of that name was flagged |
| Conversion.Check | avi_reader_github.py:296 | The corrected per-movie check (tags collected whatever `v` is). It succeeds exactly when rate and scale are non-zero and the frame has 7 words, and then flags the movie exactly when some tagged check disagrees. A zero rate or scale is `RateUndefined`; a short frame is `FrameTooShort` |
| Conversion.CollectBadFiles | avi_reader_github.py:290-302 | The corrected pass over the converted movies. It completes exactly when every movie's headers can be checked, and then returns the flagged names in the order checked |
| Conversion.BadFilesAsWrittenEmpty | avi_reader_github.py:296 | As written, with `verify_headers(v=False)`, the pass never reports any movie, whatever its headers |
| Conversion.ReopenedIsCheckable | avi_reader_github.py:295-296 | A converted movie that reopens has a non-zero rate and scale and a full frame, so the corrected check accepts it |
| Gpu.NewGpu | nv_reader.py:5-7 | A new GPU has its number, an empty process list, and none of the four readings |
| Gpu.Contains | nv_reader.py:21 | Python's `name in text` on strings: true exactly when the name occurs at some position of the text |
| Gpu.Check | nv_reader.py:9-24 | With all four readings present the GPU is admitted exactly when each is at most its threshold and no process name contains a listed name. Readings are looked at in the order temperature, power, memory, utilisation. The first one that is missing is a `MissingAttribute` error naming it; the first one over its limit gives False. Later readings are never read |
| Gpu.AnyBlocked | nv_reader.py:19-22 | The nested process/name loop finds a hit exactly when some process name contains some listed name |
| Gpu.NewGpuUnmeasured | nv_reader.py:5-10 | A freshly constructed GPU cannot be checked: the temperature attribute was never set |
| Gpu.DefaultThresholdsInclusive | nv_reader.py:9-17 | The default comparisons are strict, so a reading equal to its default limit passes and one above fails |
| Gpu.RelionProcessBlocks | nv_reader.py:19-22 | A process whose path merely contains "relion" keeps an otherwise idle GPU out under the default names |
| Gpu.EmptyNameBlocksAll | nv_reader.py:19-22 | An empty name in the list matches every process |

## Left out

- `rewrite`, in both readers: it decodes, rebins and re-encodes the movie data. Only the headers are modelled.
- The interactive conversion script around the loop (`input` prompts, directory listing, paths). `bad_files` is returned instead of kept in a module-level list. Reopening a converted file is `AviFile.Open`, applied per file; `Conversion.ReopenedIsCheckable` connects it to the corrected check.
- Conversion.CollectBadFiles: takes movies that already opened. The GitHub `AVI` constructor raises on a zero rate, which would stop the whole script before the check. That failure is stated by `AviFile.Open`, not carried through the batch. An error raised by the check itself, such as a frame too short to index, does end the pass. So does a zero scale, which the corrected check refuses where the source would compare against an inferred 0.
- AviFile.Open: rejects a zero scale. The source's float arithmetic opens such a file with `stream_tpf` 0; see the second row under Findings. It also rejects short reads; the as-written read is `AviHeader.ReadHeader` under `WarnOnly`.
- AviFile.OpenHeaders: rejects short reads. The source only prints a warning, so it opens some shorter files, such as a 160-byte file with a one-word `frame`. `AviHeader.ReadHeader` under `WarnOnly` and `HeaderCheck.ShortFrameSlipsThrough` model that case.
- `print_headers`, `show_info`, every warning printed by `verify_headers`, and the printed video length. These are console output only.
- Timing.InferTpf: computes the exact truncated quotient. The source divides in float64 twice, which can differ by one at exact integer boundaries. The only float artefacts modelled are the zero cases (`Timing.InferTpfAsWritten`).
- LittleEndian.FromBuffer: fixes little-endian byte order. `frombuffer` with `int32` uses the machine's native order, which is little-endian on the platforms this toolkit runs on.
- File handles, `seek` and `open`: a file is its byte sequence and a handle is a position in it. A seek past the end reads nothing, as in Python. I/O errors on open are not modelled.
- `parse_gpus` in `nv_reader.py`: it runs `nvidia-smi` and parses its text output. A `Gpu` value carries the readings that parse would attach.
- Gpu.Check: readings are integers. The source compares whatever `parse_gpus` stored.

## Findings

| source | as written | input that shows it | evidently intended | confidence | as-written member | corrected member |
|---|---|---|---|---|---|---|
| avi_reader_github.py:105-108 | Each tag is appended only inside the `v == True` branch, and the conversion loop calls `verify_headers(v=False)` | Any converted movie whose header frame counts differ, checked with `v=False` | Every disagreement is recorded and the file goes into `bad_files`; `v` only controls printing | high (not executed) | HeaderCheck.QuietMissesDisagreement | HeaderCheck.VerifyHeaders |
| avi_reader.py:93 | `int(1000000/(rate/scale))` in float: a zero scale makes `rate/scale` infinite and the inferred time-per-frame 0 | Rate 25, scale 0, stored time-per-frame 0: reported as agreeing | A zero scale leaves the time-per-frame undefined and is reported as an error | medium (not executed) | HeaderCheck.ZeroScaleAgreesAsWritten | HeaderCheck.Disagreements |
| avi_reader_github.py:159-162 | A short read only prints a warning, and `frombuffer` is applied to whatever bytes came back | A 160-byte file with scale 1 and rate 25 yields a one-word `frame`, so `frame[6]` fails in the dimension check | A truncated header is rejected when it is read | high (not executed) | HeaderCheck.ShortFrameSlipsThrough | AviHeader.ReadHeader |

=== FILE: avi_file.dfy ===
/** Opening a movie: the headers a well-formed file decodes to, the two
    constructors (`avi_reader.py` reads the headers only, the GitHub copy
    also infers the stream's time-per-frame), and the byte image that
    encodes a given pair of headers. */
module AviFile {
  import opened Results
  import opened AviErrors
  import opened LittleEndian
  import opened FieldReader
  import opened Timing
  import opened AviHeader

  /** Byte offsets of the stream header's scale and rate words. */
  const ScaleOffset: nat := 128
  const RateOffset: nat := 132

  /** The file holds both headers in full and its stream tags are ASCII. */
  predicate Decodable(file: seq<byte>) {
    |file| >= HeaderEnd && AsciiRun(file, StreamHeaderOffset, 8)
  }

  /** The tag whose characters are the four bytes at `offset`. */
  function TagFrom(d: seq<byte>, offset: nat): (tag: string)
    requires offset + 4 <= |d| && AsciiRun(d, offset, 4)
    ensures TagAt(tag, d, offset)
  {
    Chars(d[offset..offset + 4])
  }

  /** The stream header stored at `p`, field by field. */
  function StreamAt(d: seq<byte>, p: nat): StreamHeader
    requires p + 76 <= |d| && AsciiRun(d, p, 8)
  {
    StreamHeader(TagFrom(d, p), TagFrom(d, p + 4),
                 WordAt(d, p + 8), WordAt(d, p + 12), WordAt(d, p + 16), WordAt(d, p + 20), WordAt(d, p + 24),
                 WordAt(d, p + 28), WordAt(d, p + 32), WordAt(d, p + 36), WordAt(d, p + 40), WordAt(d, p + 44),
                 seq(7, i requires 0 <= i < 7 => WordAt(d, p + 48 + 4 * i)))
  }

  /** The headers a decodable file holds: a reference decoder written
      straight from the byte layout, independent of the read sequence. */
  function Decode(file: seq<byte>): Headers
    requires Decodable(file)
  {
    Headers(MainAt(file, MainHeaderOffset), StreamAt(file, StreamHeaderOffset))
  }

  /** The layout predicate the readers establish pins the stream header
      down: on a file that holds the whole header only one record fits it. */
  lemma StreamLaidOutUnique(s: StreamHeader, d: seq<byte>, p: nat)
    requires p + 76 <= |d| && AsciiRun(d, p, 8)
    requires StreamLaidOut(s, d, p)
    ensures s == StreamAt(d, p)
  {
    var t := StreamAt(d, p);
    assert s.fccType == t.fccType;
    assert s.fccHandler == t.fccHandler;
    assert s.frame == t.frame;
  }

  /** `AVI(fi)` in `avi_reader.py`: read the headers and nothing else, so a
      zero rate or scale does not stop the file from opening. */
  method OpenHeaders(file: seq<byte>) returns (r: Result<Headers, AviError>)
    ensures r.Ok? <==> Decodable(file)
    ensures r.Ok? ==> r.value == Decode(file)
    ensures r.Err? && TagBytesAscii(file, StreamHeaderOffset) ==> r.error.ShortRead?
    ensures r.Err? && |file| >= HeaderEnd ==> r.error.NonAsciiByte?
  {
    r := ReadHeader(file, Reject);
    if r.Ok? {
      StreamLaidOutUnique(r.value.stream, file, StreamHeaderOffset);
    }
  }

  /** A file opened by the GitHub reader: its headers and `stream_tpf`. */
  datatype Avi = Avi(headers: Headers, streamTpf: int)

  /** The file's stream rate and scale are both non-zero. */
  predicate RateDefined(file: seq<byte>)
    requires |file| >= HeaderEnd
  {
    WordAt(file, RateOffset) != 0 && WordAt(file, ScaleOffset) != 0
  }

  /** The files the GitHub reader opens. */
  predicate Opens(file: seq<byte>) {
    Decodable(file) && RateDefined(file)
  }

  /** `AVI(fi)` in `avi_reader_github.py`: read the headers, then infer the
      stream's time-per-frame, which fails on a zero rate or scale. */
  method Open(file: seq<byte>) returns (r: Result<Avi, AviError>)
    ensures r.Ok? <==> Opens(file)
    ensures r.Ok? ==> r.value.headers == Decode(file)
    ensures r.Ok? ==>
      IsTruncatedQuotient(MicrosPerSecond * WordAt(file, ScaleOffset), WordAt(file, RateOffset), r.value.streamTpf)
    ensures Decodable(file) && !RateDefined(file) ==>
      r == Err(RateUndefined(WordAt(file, RateOffset), WordAt(file, ScaleOffset)))
    ensures r.Err? && TagBytesAscii(file, StreamHeaderOffset) && |file| < HeaderEnd ==> r.error.ShortRead?
    ensures r.Err? && |file| >= HeaderEnd && !AsciiRun(file, StreamHeaderOffset, 8) ==> r.error.NonAsciiByte?
  {
    var h :- OpenHeaders(file);
    var stream := h.stream;
    match InferTpf(stream.rate, stream.scale)
    case None =>
      return Err(RateUndefined(stream.rate, stream.scale));
    case Some(tpf) =>
      return Ok(Avi(h, tpf));
  }

  /** The ten main-header words in file order. */
  function MainWords(m: MainHeader): (ws: seq<int>)
    ensures |ws| == 10
  {
    [m.tpf, m.datarate, m.padding, m.flags, m.frameNumber, m.initialFrames, m.dataStreams, m.bufferSize,
     m.width, m.height]
  }

  /** The ten stream-header words in file order, then the frame. */
  function StreamWords(s: StreamHeader): (ws: seq<int>)
    ensures |ws| == 10 + |s.frame|
  {
    [s.flags, s.priority, s.initialFrames, s.scale, s.rate, s.startTime, s.frameNumber, s.bufferSize,
     s.quality, s.sampleSize] + s.frame
  }

  /** Four characters below 0x80. */
  predicate TagWritable(tag: string) {
    |tag| == 4 && forall i :: 0 <= i < 4 ==> tag[i] as int < 128
  }

  /** Headers a file can hold: every word fits in 32 bits, the tags are
      four ASCII characters and the frame has seven words. */
  predicate WellFormed(h: Headers) {
    && AllInt32(MainWords(h.main))
    && AllInt32(StreamWords(h.stream))
    && TagWritable(h.stream.fccType) && TagWritable(h.stream.fccHandler)
    && |h.stream.frame| == 7
  }

  /** The file image holding `h`: `lead` fills the 32 bytes before the main
      header, `reserved` the four reserved words, `gap` the 20 bytes up to
      the stream header, and `rest` whatever follows the frame. */
  function Encode(h: Headers, lead: seq<byte>, reserved: seq<int>, gap: seq<byte>, rest: seq<byte>): (file: seq<byte>)
    requires WellFormed(h)
    requires |lead| == MainHeaderOffset && |reserved| == 4 && AllInt32(reserved) && |gap| == 20
    ensures |file| == HeaderEnd + |rest|
  {
    var tags := LetterBytes(h.stream.fccType) + LetterBytes(h.stream.fccHandler);
    lead + (ToBuffer(MainWords(h.main) + reserved) + (gap + (tags + (ToBuffer(StreamWords(h.stream)) + rest))))
  }

  /** A main header is determined by its ten words. */
  lemma MainFromWords(d: seq<byte>, p: nat, m: MainHeader)
    requires p + 40 <= |d|
    requires forall i :: 0 <= i < 10 ==> WordAt(d, p + 4 * i) == MainWords(m)[i]
    ensures MainAt(d, p) == m
  {
    var w := MainWords(m);
    assert WordAt(d, p) == w[0] && WordAt(d, p + 4) == w[1] && WordAt(d, p + 8) == w[2];
    assert WordAt(d, p + 12) == w[3] && WordAt(d, p + 16) == w[4] && WordAt(d, p + 20) == w[5];
    assert WordAt(d, p + 24) == w[6] && WordAt(d, p + 28) == w[7] && WordAt(d, p + 32) == w[8];
    assert WordAt(d, p + 36) == w[9];
  }

  /** A stream header is determined by its tags, its ten words and its frame. */
  lemma StreamFromWords(d: seq<byte>, p: nat, s: StreamHeader)
    requires p + 76 <= |d| && AsciiRun(d, p, 8)
    requires TagAt(s.fccType, d, p) && TagAt(s.fccHandler, d, p + 4) && |s.frame| == 7
    requires forall i :: 0 <= i < 17 ==> WordAt(d, p + 8 + 4 * i) == StreamWords(s)[i]
    ensures StreamAt(d, p) == s
  {
    var w := StreamWords(s);
    var t := StreamAt(d, p);
    assert WordAt(d, p + 8) == w[0] && WordAt(d, p + 12) == w[1] && WordAt(d, p + 16) == w[2];
    assert WordAt(d, p + 20) == w[3] && WordAt(d, p + 24) == w[4] && WordAt(d, p + 28) == w[5];
    assert WordAt(d, p + 32) == w[6] && WordAt(d, p + 36) == w[7] && WordAt(d, p + 40) == w[8];
    assert WordAt(d, p + 44) == w[9];
    assert t.fccType == s.fccType;
    assert t.fccHandler == s.fccHandler;
    assert t.frame == s.frame by {
      forall i | 0 <= i < 7
        ensures t.frame[i] == s.frame[i]
      {
        assert WordAt(d, p + 8 + 4 * (10 + i)) == w[10 + i];
      }
    }
  }

  /** Reading back the main header of an encoded file gives the one written. */
  lemma EncodeMain(h: Headers, lead: seq<byte>, reserved: seq<int>, gap: seq<byte>, rest: seq<byte>)
    requires WellFormed(h)
    requires |lead| == MainHeaderOffset && |reserved| == 4 && AllInt32(reserved) && |gap| == 20
    ensures MainAt(Encode(h, lead, reserved, gap, rest), MainHeaderOffset) == h.main
  {
    var ws := MainWords(h.main) + reserved;
    var tags := LetterBytes(h.stream.fccType) + LetterBytes(h.stream.fccHandler);
    var tail := gap + (tags + (ToBuffer(StreamWords(h.stream)) + rest));
    assert AllInt32(ws);
    forall i | 0 <= i < 10
      ensures WordAt(Encode(h, lead, reserved, gap, rest), MainHeaderOffset + 4 * i) == MainWords(h.main)[i]
    {
      WordInBuffer(lead, ws, tail, i);
    }
    MainFromWords(Encode(h, lead, reserved, gap, rest), MainHeaderOffset, h.main);
  }

  /** Reading back the stream header of an encoded file gives the one written. */
  lemma EncodeStream(h: Headers, lead: seq<byte>, reserved: seq<int>, gap: seq<byte>, rest: seq<byte>)
    requires WellFormed(h)
    requires |lead| == MainHeaderOffset && |reserved| == 4 && AllInt32(reserved) && |gap| == 20
    ensures AsciiRun(Encode(h, lead, reserved, gap, rest), StreamHeaderOffset, 8)
    ensures StreamAt(Encode(h, lead, reserved, gap, rest), StreamHeaderOffset) == h.stream
  {
    var file := Encode(h, lead, reserved, gap, rest);
    var s := h.stream;
    var tags := LetterBytes(s.fccType) + LetterBytes(s.fccHandler);
    var ws := StreamWords(s);
    var prefix := lead + ToBuffer(MainWords(h.main) + reserved) + gap + tags;
    assert |prefix| == 116;
    assert file == prefix + (ToBuffer(ws) + rest);
    forall i | 0 <= i < 8
      ensures file[StreamHeaderOffset + i] == tags[i]
    {
    }
    assert AsciiRun(file, StreamHeaderOffset, 8);
    forall i | 0 <= i < 17
      ensures WordAt(file, StreamHeaderOffset + 8 + 4 * i) == ws[i]
    {
      WordInBuffer(prefix, ws, rest, i);
    }
    StreamFromWords(file, StreamHeaderOffset, s);
  }

  /** Decoding an encoded file gives back the headers written, whatever
      fills the bytes the readers skip. */
  lemma EncodeDecodes(h: Headers, lead: seq<byte>, reserved: seq<int>, gap: seq<byte>, rest: seq<byte>)
    requires WellFormed(h)
    requires |lead| == MainHeaderOffset && |reserved| == 4 && AllInt32(reserved) && |gap| == 20
    ensures Decodable(Encode(h, lead, reserved, gap, rest))
    ensures Decode(Encode(h, lead, reserved, gap, rest)) == h
  {
    EncodeMain(h, lead, reserved, gap, rest);
    EncodeStream(h, lead, reserved, gap, rest);
  }
}

=== FILE: avi_header.dfy ===
/** The AVI main header and stream header, decoded at the fixed offsets 32
    and 108 where a single-stream file's `avih` and `strh` payloads begin.
    The RIFF chunk tree is not walked. */
module AviHeader {
  import opened Results
  import opened AviErrors
  import opened LittleEndian
  import opened FieldReader

  const MainHeaderOffset: nat := 32
  const StreamHeaderOffset: nat := 108
  /** Bytes the two headers occupy, up to the end of the 7-word frame. */
  const HeaderEnd: nat := 184

  /** The main header: ten words read from offset 32. */
  datatype MainHeader = MainHeader(
    tpf: int,
    datarate: int,
    padding: int,
    flags: int,
    frameNumber: int,
    initialFrames: int,
    dataStreams: int,
    bufferSize: int,
    width: int,
    height: int)

  /** The stream header: two tags, ten words (scale before rate) and a
      7-word `frame` whose entries 5 and 6 hold width and height. */
  datatype StreamHeader = StreamHeader(
    fccType: string,
    fccHandler: string,
    flags: int,
    priority: int,
    initialFrames: int,
    scale: int,
    rate: int,
    startTime: int,
    frameNumber: int,
    bufferSize: int,
    quality: int,
    sampleSize: int,
    frame: seq<int>)

  datatype Headers = Headers(main: MainHeader, stream: StreamHeader)

  /** One word through `read_values(file, int32, 1)`. */
  function ReadWord(c: Cursor, policy: ShortReads): (r: Result<(int, Cursor), AviError>)
    ensures r.Ok? <==> c.pos + 4 <= |c.data|
    ensures r.Ok? ==> r.value == (WordAt(c.data, c.pos), Cursor(c.data, c.pos + 4))
    ensures r.Err? && policy == Reject ==> r.error.ShortRead?
  {
    var v :- ReadValues(c, 1, policy);
    Ok((v.0.x, v.1))
  }

  /** `n` successive single-word reads, as the header readers issue them. */
  method ReadWords(c: Cursor, n: nat, policy: ShortReads) returns (r: Result<(seq<int>, Cursor), AviError>)
    ensures r.Ok? <==> n == 0 || c.pos + 4 * n <= |c.data|
    ensures r.Err? && policy == Reject ==> r.error.ShortRead?
    ensures r.Ok? ==>
      r.value.1 == Cursor(c.data, c.pos + 4 * n) && |r.value.0| == n
      && forall i :: 0 <= i < n ==> r.value.0[i] == WordAt(c.data, c.pos + 4 * i)
  {
    var words: seq<int> := [];
    var cur := c;
    while |words| < n
      invariant |words| <= n
      invariant cur == Cursor(c.data, c.pos + 4 * |words|)
      invariant |words| == 0 || c.pos + 4 * |words| <= |c.data|
      invariant forall i :: 0 <= i < |words| ==> words[i] == WordAt(c.data, c.pos + 4 * i)
    {
      var w := ReadWord(cur, policy);
      if w.Err? {
        return Err(w.error);
      }
      words := words + [w.value.0];
      cur := w.value.1;
    }
    return Ok((words, cur));
  }

  /** The main header whose ten fields are the words from `p` on, in order. */
  function MainAt(d: seq<byte>, p: nat): MainHeader
    requires p + 40 <= |d|
  {
    MainHeader(WordAt(d, p), WordAt(d, p + 4), WordAt(d, p + 8), WordAt(d, p + 12), WordAt(d, p + 16),
               WordAt(d, p + 20), WordAt(d, p + 24), WordAt(d, p + 28), WordAt(d, p + 32), WordAt(d, p + 36))
  }

  /** The ten main-header fields, one `read_values` call each. */
  method ReadMain(c: Cursor, policy: ShortReads) returns (r: Result<(MainHeader, Cursor), AviError>)
    ensures r.Ok? <==> c.pos + 40 <= |c.data|
    ensures r.Err? && policy == Reject ==> r.error.ShortRead?
    ensures r.Ok? ==> r.value == (MainAt(c.data, c.pos), Cursor(c.data, c.pos + 40))
  {
    var words :- ReadWords(c, 10, policy);
    var w := words.0;
    assert w[1] == WordAt(c.data, c.pos + 4) && w[9] == WordAt(c.data, c.pos + 36);
    return Ok((MainHeader(w[0], w[1], w[2], w[3], w[4], w[5], w[6], w[7], w[8], w[9]), words.1));
  }

  /** `tag` is the four characters whose codes are the bytes at `offset`. */
  predicate TagAt(tag: string, data: seq<byte>, offset: nat)
    requires offset + 4 <= |data|
  {
    |tag| == 4 && forall i :: 0 <= i < 4 ==> tag[i] as int == data[offset + i]
  }

  /** Every tag byte the file holds from `offset` on is below 0x80. */
  predicate TagBytesAscii(data: seq<byte>, offset: nat) {
    forall i :: offset <= i < offset + 8 && i < |data| ==> data[i] < 128
  }

  /** When the stream-header read succeeds: the tags and the ten words must
      be there, and the tags must be ASCII. The frame must be complete when
      short reads are rejected; as written it need only end on a word. */
  predicate StreamReadable(d: seq<byte>, p: nat, policy: ShortReads) {
    && p + 48 <= |d|
    && AsciiRun(d, p, 8)
    && (policy == Reject ==> p + 76 <= |d|)
    && Available(Cursor(d, p + 48), 28) % 4 == 0
  }

  /** Where each stream-header field sits relative to `p`: tags at 0 and 4,
      ten words from 8 (scale before rate), the frame words from 48. */
  predicate StreamLaidOut(s: StreamHeader, d: seq<byte>, p: nat) {
    && p + 48 <= |d|
    && TagAt(s.fccType, d, p) && TagAt(s.fccHandler, d, p + 4)
    && s.flags == WordAt(d, p + 8) && s.priority == WordAt(d, p + 12)
    && s.initialFrames == WordAt(d, p + 16) && s.scale == WordAt(d, p + 20)
    && s.rate == WordAt(d, p + 24) && s.startTime == WordAt(d, p + 28)
    && s.frameNumber == WordAt(d, p + 32) && s.bufferSize == WordAt(d, p + 36)
    && s.quality == WordAt(d, p + 40) && s.sampleSize == WordAt(d, p + 44)
    && 4 * |s.frame| == Available(Cursor(d, p + 48), 28)
    && forall i :: 0 <= i < |s.frame| ==> s.frame[i] == WordAt(d, p + 48 + 4 * i)
  }

  /** The two stream tags, `fccType` then `fccHandler`. */
  method ReadTags(c: Cursor, policy: ShortReads) returns (r: Result<(string, string, Cursor), AviError>)
    ensures c.pos + 8 <= |c.data| ==> (r.Ok? <==> AsciiRun(c.data, c.pos, 8))
    ensures r.Ok? ==> r.value.2.data == c.data && (r.value.2.pos == c.pos + 8 || |c.data| <= r.value.2.pos)
    ensures r.Ok? && c.pos + 8 <= |c.data| ==>
      TagAt(r.value.0, c.data, c.pos) && TagAt(r.value.1, c.data, c.pos + 4)
      && r.value.2 == Cursor(c.data, c.pos + 8)
    ensures r.Err? && policy == Reject && TagBytesAscii(c.data, c.pos) ==> r.error.ShortRead?
    ensures r.Err? && c.pos + 8 <= |c.data| ==> r.error.NonAsciiByte?
  {
    var fccType :- ReadLetters(c, 4, policy);
    var fccHandler :- ReadLetters(fccType.1, 4, policy);
    return Ok((fccType.0, fccHandler.0, fccHandler.1));
  }

  /** The 7-word `frame`, one `read_values(file, int32, 7)` call: as
      written, a read that stops on a word boundary yields a shorter frame. */
  method ReadFrame(c: Cursor, policy: ShortReads) returns (r: Result<seq<int>, AviError>)
    ensures r.Ok? <==> (policy == Reject ==> c.pos + 28 <= |c.data|) && Available(c, 28) % 4 == 0
    ensures r.Err? && policy == Reject ==> r.error.ShortRead?
    ensures r.Ok? ==>
      && 4 * |r.value| == Available(c, 28)
      && forall i :: 0 <= i < |r.value| ==> r.value[i] == WordAt(c.data, c.pos + 4 * i)
  {
    var frame :- ReadValues(c, 7, policy);
    return Ok(frame.0.xs);
  }

  /** The four reserved main-header words, read and discarded. */
  method SkipReserved(c: Cursor, policy: ShortReads) returns (r: Result<Cursor, AviError>)
    ensures c.pos + 16 <= |c.data| ==> r == Ok(Cursor(c.data, c.pos + 16))
    ensures r.Ok? ==> r.value.data == c.data
    ensures r.Err? && policy == Reject ==> r.error.ShortRead?
  {
    var reserved :- ReadValues(c, 4, policy);
    return Ok(reserved.1);
  }

  /** The ten stream-header words, then the 7-word frame. */
  method ReadStreamFields(c: Cursor, policy: ShortReads) returns (r: Result<(seq<int>, seq<int>), AviError>)
    ensures r.Ok? <==>
      c.pos + 40 <= |c.data| && (policy == Reject ==> c.pos + 68 <= |c.data|)
      && Available(Cursor(c.data, c.pos + 40), 28) % 4 == 0
    ensures r.Err? && policy == Reject ==> r.error.ShortRead?
    ensures r.Ok? ==>
      && |r.value.0| == 10
      && (forall i :: 0 <= i < 10 ==> r.value.0[i] == WordAt(c.data, c.pos + 4 * i))
      && 4 * |r.value.1| == Available(Cursor(c.data, c.pos + 40), 28)
      && forall i :: 0 <= i < |r.value.1| ==> r.value.1[i] == WordAt(c.data, c.pos + 40 + 4 * i)
  {
    var words :- ReadWords(c, 10, policy);
    var frame :- ReadFrame(words.1, policy);
    return Ok((words.0, frame));
  }

  /** The stream header, read in file order from the cursor. */
  method ReadStream(c: Cursor, policy: ShortReads) returns (r: Result<StreamHeader, AviError>)
    ensures r.Ok? <==> StreamReadable(c.data, c.pos, policy)
    ensures r.Ok? ==> StreamLaidOut(r.value, c.data, c.pos)
    ensures r.Err? && policy == Reject && TagBytesAscii(c.data, c.pos) ==> r.error.ShortRead?
    ensures r.Err? && c.pos + 76 <= |c.data| ==> r.error.NonAsciiByte?
  {
    var tags :- ReadTags(c, policy);
    var fields :- ReadStreamFields(tags.2, policy);
    assert tags.2 == Cursor(c.data, c.pos + 8);
    var (w, frame) := fields;
    StreamLayout(tags.0, tags.1, w, frame, c.data, c.pos);
    return Ok(StreamHeader(tags.0, tags.1, w[0], w[1], w[2], w[3], w[4], w[5], w[6], w[7], w[8], w[9], frame));
  }

  lemma StreamLayout(fccType: string, fccHandler: string, w: seq<int>, frame: seq<int>, d: seq<byte>, p: nat)
    requires p + 48 <= |d|
    requires TagAt(fccType, d, p) && TagAt(fccHandler, d, p + 4)
    requires |w| == 10 && forall i :: 0 <= i < 10 ==> w[i] == WordAt(d, p + 8 + 4 * i)
    requires 4 * |frame| == Available(Cursor(d, p + 48), 28)
    requires forall i :: 0 <= i < |frame| ==> frame[i] == WordAt(d, p + 48 + 4 * i)
    ensures StreamLaidOut(StreamHeader(fccType, fccHandler, w[0], w[1], w[2], w[3], w[4], w[5], w[6], w[7], w[8], w[9],
                                       frame), d, p)
  {
    assert w[1] == WordAt(d, p + 12) && w[9] == WordAt(d, p + 44);
  }

  /** The frame starts at 156, a multiple of 4, so a file ends on a word of
      the frame exactly when its length is a multiple of 4. */
  lemma FramePhase(n: nat)
    requires n >= 156
    ensures (n - 156) % 4 == n % 4
  {
    var q, r := (n - 156) / 4, (n - 156) % 4;
    assert n == 4 * (q + 39) + r;
  }

  /** At offset 108 the stream-header read succeeds exactly on files long
      enough for the whole header (as written: long enough for the ten
      words, ending on a word of the frame) whose tags are ASCII. */
  lemma StreamReadableAt108(file: seq<byte>, policy: ShortReads)
    ensures policy == Reject ==> (StreamReadable(file, 108, policy) <==> |file| >= HeaderEnd && AsciiRun(file, 108, 8))
    ensures policy == WarnOnly ==>
      (StreamReadable(file, 108, policy) <==>
         |file| >= 156 && AsciiRun(file, 108, 8) && (|file| >= HeaderEnd || |file| % 4 == 0))
  {
    if 156 <= |file| < HeaderEnd {
      assert Available(Cursor(file, 156), 28) == |file| - 156;
      FramePhase(|file|);
    }
  }

  /** `read_header`: seek to 32, read the main header and four reserved
      words (discarded), seek to 108, read the stream header. */
  method ReadHeader(file: seq<byte>, policy: ShortReads) returns (r: Result<Headers, AviError>)
    // which files open, and why the others do not
    ensures policy == Reject ==> (r.Ok? <==> |file| >= HeaderEnd && AsciiRun(file, 108, 8))
    ensures policy == WarnOnly ==>
      (r.Ok? <==> |file| >= 156 && AsciiRun(file, 108, 8) && (|file| >= HeaderEnd || |file| % 4 == 0))
    ensures r.Err? && policy == Reject && TagBytesAscii(file, 108) ==> r.error.ShortRead?
    ensures r.Err? && |file| >= HeaderEnd ==> r.error.NonAsciiByte?
    // the field layout, at absolute byte offsets
    ensures r.Ok? ==> |file| >= 156 && r.value.main == MainAt(file, MainHeaderOffset)
    ensures r.Ok? ==> StreamLaidOut(r.value.stream, file, StreamHeaderOffset)
  {
    var main :- ReadMain(Seek(Cursor(file, 0), MainHeaderOffset), policy);
    var reserved :- SkipReserved(main.1, policy);
    StreamReadableAt108(file, policy);
    var stream :- ReadStream(Seek(reserved, StreamHeaderOffset), policy);
    return Ok(Headers(main.0, stream));
  }
}

=== FILE: conversion.dfy ===
/** The verification pass of the GitHub copy's conversion loop: every
    converted movie, once reopened, is checked, and the ones with header
    disagreements are collected. The module-level `bad_files` list is
    returned here instead of being appended to. */
module Conversion {
  import opened Results
  import opened AviErrors
  import opened LittleEndian
  import opened AviHeader
  import opened AviFile
  import opened HeaderCheck

  /** A converted movie that reopens, as `AVI(pathout)` must before
      `verify_headers` runs, has headers the corrected check accepts. */
  lemma ReopenedIsCheckable(file: seq<byte>)
    requires Opens(file)
    ensures Checkable(Decode(file))
  {
  }

  /** A movie that opened: its path and its headers. */
  datatype Reopened = Reopened(name: string, headers: Headers)

  /** Headers the corrected check flags: some tagged check disagrees. */
  predicate Disagrees(h: Headers) {
    Checkable(h) && Disagreements(h).value != []
  }

  /** Headers the source flags when it checks with `v=False`. */
  predicate DisagreesAsWritten(h: Headers) {
    Comparable(h) && VerifyHeadersAsWritten(h, false).value.flagged
  }

  /** The names of the movies `flagged` holds of, in the order checked:
      the `bad_files` list after the pass. */
  function BadFiles(movies: seq<Reopened>, flagged: Headers -> bool): (names: seq<string>)
    ensures |names| <= |movies|
    ensures forall i :: 0 <= i < |movies| && flagged(movies[i].headers) ==> movies[i].name in names
  {
    if |movies| == 0 then []
    else
      var last := movies[|movies| - 1];
      BadFiles(movies[..|movies| - 1], flagged) + (if flagged(last.headers) then [last.name] else [])
  }

  /** Checking one more movie appends its name, if flagged, to the list. */
  lemma BadFilesStep(movies: seq<Reopened>, i: nat, flagged: Headers -> bool)
    requires i < |movies|
    ensures BadFiles(movies[..i + 1], flagged)
            == BadFiles(movies[..i], flagged) + (if flagged(movies[i].headers) then [movies[i].name] else [])
  {
    assert movies[..i + 1][..i] == movies[..i];
  }

  /** The pass over two batches in turn reports the first batch's names
      and then the second's: the list keeps the order of checking. */
  lemma {:induction false} BadFilesConcat(first: seq<Reopened>, second: seq<Reopened>, flagged: Headers -> bool)
    ensures BadFiles(first + second, flagged) == BadFiles(first, flagged) + BadFiles(second, flagged)
  {
    if |second| == 0 {
      assert first + second == first;
    } else {
      var init := second[..|second| - 1];
      BadFilesConcat(first, init, flagged);
      assert (first + second)[..|first + second| - 1] == first + init;
      assert (first + second)[|first + second| - 1] == second[|second| - 1];
    }
  }

  /** A name is reported exactly when some movie of that name is flagged. */
  lemma {:induction false} BadFilesMembers(movies: seq<Reopened>, flagged: Headers -> bool, name: string)
    ensures name in BadFiles(movies, flagged) <==>
      exists i :: 0 <= i < |movies| && movies[i].name == name && flagged(movies[i].headers)
  {
    if |movies| > 0 {
      var init := movies[..|movies| - 1];
      BadFilesMembers(init, flagged, name);
      if name in BadFiles(init, flagged) {
        var i :| 0 <= i < |init| && init[i].name == name && flagged(init[i].headers);
        assert movies[i] == init[i];
      }
      if exists i :: 0 <= i < |movies| && movies[i].name == name && flagged(movies[i].headers) {
        var i :| 0 <= i < |movies| && movies[i].name == name && flagged(movies[i].headers);
        if i < |init| {
          assert init[i] == movies[i];
        }
      }
    }
  }

  /** `verify_headers()` on one reopened movie: whether it goes into
      `bad_files`, or the error that stops the script. */
  method Check(h: Headers) returns (r: Result<bool, AviError>)
    ensures r.Ok? <==> Checkable(h)
    ensures r.Ok? ==> (r.value <==> Disagrees(h))
    ensures h.stream.rate == 0 || h.stream.scale == 0 ==> r == Err(RateUndefined(h.stream.rate, h.stream.scale))
    ensures h.stream.rate != 0 && h.stream.scale != 0 && |h.stream.frame| < 7 ==>
      r == Err(FrameTooShort(|h.stream.frame|))
  {
    var report :- VerifyHeaders(h);
    return Ok(report.flagged);
  }

  /** Every movie's headers can be checked. */
  predicate AllCheckable(movies: seq<Reopened>) {
    forall i :: 0 <= i < |movies| ==> Checkable(movies[i].headers)
  }

  /** The verification pass of the conversion loop: `verify_headers()` on
      each reopened movie in turn, with `bad_files` returned. A movie whose
      headers cannot be checked raises in the source and ends the pass. */
  method CollectBadFiles(movies: seq<Reopened>) returns (r: Result<seq<string>, AviError>)
    ensures r.Ok? <==> AllCheckable(movies)
    ensures r.Ok? ==> r.value == BadFiles(movies, Disagrees)
  {
    var bad := [];
    var i := 0;
    while i < |movies|
      invariant 0 <= i <= |movies|
      invariant AllCheckable(movies[..i])
      invariant bad == BadFiles(movies[..i], Disagrees)
    {
      var flagged := Check(movies[i].headers);
      if flagged.Err? {
        return Err(flagged.error);
      }
      BadFilesStep(movies, i, Disagrees);
      if flagged.value {
        bad := bad + [movies[i].name];
      }
      i := i + 1;
    }
    assert movies[..i] == movies;
    return Ok(bad);
  }

  /** As written the pass never reports a movie, whatever the headers say. */
  lemma {:induction false} BadFilesAsWrittenEmpty(movies: seq<Reopened>)
    ensures BadFiles(movies, DisagreesAsWritten) == []
  {
    if |movies| > 0 {
      BadFilesAsWrittenEmpty(movies[..|movies| - 1]);
    }
  }
}

=== FILE: field_reader.dfy ===
/** The two low-level readers every header field goes through, `read_values`
    and `read_letters`, over an immutable file image with a read position. */
module FieldReader {
  import opened Results
  import opened AviErrors
  import opened LittleEndian

  /** An open file: its bytes and the current position of the handle. */
  datatype Cursor = Cursor(data: seq<byte>, pos: nat)

  /** What a reader does when the file holds fewer bytes than asked for.
      `Reject` fails the read. `WarnOnly` is the source as written: it only
      prints a warning and hands the short buffer on to numpy. */
  datatype ShortReads = Reject | WarnOnly

  /** A call with count 1 yields a scalar, any other count an array. */
  datatype Values = Scalar(x: int) | Array(xs: seq<int>)

  /** `file.seek(offset)`. */
  function Seek(c: Cursor, offset: nat): (c': Cursor)
    ensures c'.data == c.data && c'.pos == offset
  {
    Cursor(c.data, offset)
  }

  /** How many of `n` requested bytes a read at the cursor can deliver. */
  function Available(c: Cursor, n: nat): nat {
    if c.pos + n <= |c.data| then n
    else if c.pos <= |c.data| then |c.data| - c.pos
    else 0
  }

  /** `file.read(n)`: the bytes from the position up to `n` or the end of the
      file, whichever comes first; the position moves past what was read. */
  function Read(c: Cursor, n: nat): (r: (seq<byte>, Cursor))
    ensures |r.0| == Available(c, n) <= n
    ensures forall i :: 0 <= i < |r.0| ==> r.0[i] == c.data[c.pos + i]
    ensures r.1 == Cursor(c.data, c.pos + |r.0|)
  {
    if |c.data| <= c.pos then ([], c)
    else
      var end := if c.pos + n <= |c.data| then c.pos + n else |c.data|;
      (c.data[c.pos..end], Cursor(c.data, end))
  }

  /** `read_values(file, int32, count)`: reads `4 * count` bytes and decodes
      them as little-endian words. Under `WarnOnly` a short buffer survives
      when its length is still a multiple of 4 (numpy then decodes fewer
      words); otherwise numpy raises, or `values[0]` finds no word. */
  function ReadValues(c: Cursor, count: nat, policy: ShortReads): (r: Result<(Values, Cursor), AviError>)
    // a read of exactly 4 * count bytes always succeeds and decodes the words in place
    ensures c.pos + 4 * count <= |c.data| ==> r.Ok?
    ensures r.Ok? && c.pos + 4 * count <= |c.data| ==>
      r.value.1 == Cursor(c.data, c.pos + 4 * count)
      && (count == 1 ==> r.value.0 == Scalar(WordAt(c.data, c.pos)))
      && (count != 1 ==>
            && r.value.0.Array? && |r.value.0.xs| == count
            && forall i :: 0 <= i < count ==> r.value.0.xs[i] == WordAt(c.data, c.pos + 4 * i))
    // short reads: the model rejects every one of them
    ensures policy == Reject && Available(c, 4 * count) < 4 * count ==>
      r == Err(ShortRead(c.pos, 4 * count, Available(c, 4 * count)))
    // as written: a single word past the end always fails, a partial array only when ragged
    ensures count == 1 ==> (r.Ok? <==> c.pos + 4 <= |c.data|)
    ensures policy == WarnOnly && count != 1 ==> (r.Ok? <==> Available(c, 4 * count) % 4 == 0)
    ensures r.Ok? && count != 1 ==>
      r.value.0.Array? && 4 * |r.value.0.xs| == Available(c, 4 * count)
      && r.value.1 == Cursor(c.data, c.pos + 4 * |r.value.0.xs|)
      && forall i :: 0 <= i < |r.value.0.xs| ==> r.value.0.xs[i] == WordAt(c.data, c.pos + 4 * i)
  {
    var (raw, next) := Read(c, 4 * count);
    if |raw| < 4 * count && policy == Reject then Err(ShortRead(c.pos, 4 * count, |raw|))
    else if |raw| % 4 != 0 then Err(PartialWord(c.pos, |raw|))
    else
      var words := FromBuffer(raw);
      assert forall i :: 0 <= i < |words| ==> raw[4 * i..4 * i + 4] == c.data[c.pos + 4 * i..c.pos + 4 * i + 4];
      if count == 1 then
        if |words| == 0 then Err(NoValue(c.pos)) else Ok((Scalar(words[0]), next))
      else Ok((Array(words), next))
  }

  /** All `n` bytes from `offset` are below 0x80, i.e. non-negative as np.byte. */
  predicate AsciiRun(data: seq<byte>, offset: nat, n: nat)
    requires offset + n <= |data|
  {
    forall i :: offset <= i < offset + n ==> data[i] < 128
  }

  /** Every byte is below 0x80. */
  predicate Ascii(raw: seq<byte>) {
    AsciiRun(raw, 0, |raw|)
  }

  /** The characters `chr(v)` gives for bytes below 0x80, one per byte. */
  function Chars(raw: seq<byte>): (s: string)
    requires Ascii(raw)
    ensures |s| == |raw|
  {
    seq(|raw|, i requires 0 <= i < |raw| => raw[i] as char)
  }

  /** `read_letters(file, np.byte, count)`: one character per byte, in order,
      with nothing stripped. Bytes of 0x80 and above are negative np.byte
      values, which `chr` refuses. Under `WarnOnly` a short read yields a
      shorter string. */
  function ReadLetters(c: Cursor, count: nat, policy: ShortReads): (r: Result<(string, Cursor), AviError>)
    ensures r.Ok? ==>
      |r.value.0| == Available(c, count)
      && r.value.1 == Cursor(c.data, c.pos + |r.value.0|)
      && forall i :: 0 <= i < |r.value.0| ==> r.value.0[i] as int == c.data[c.pos + i]
    ensures c.pos + count <= |c.data| ==> (r.Ok? <==> AsciiRun(c.data, c.pos, count))
    ensures c.pos + count <= |c.data| && !AsciiRun(c.data, c.pos, count) ==> r == Err(NonAsciiByte(c.pos))
    ensures policy == Reject && Available(c, count) < count ==>
      r == Err(ShortRead(c.pos, count, Available(c, count)))
    ensures policy == WarnOnly && c.pos <= |c.data| ==> (r.Ok? <==> AsciiRun(c.data, c.pos, Available(c, count)))
    ensures policy == WarnOnly && |c.data| < c.pos ==> r == Ok(("", c))
  {
    var (raw, next) := Read(c, count);
    if |raw| < count && policy == Reject then Err(ShortRead(c.pos, count, |raw|))
    else if !Ascii(raw) then Err(NonAsciiByte(c.pos))
    else Ok((Chars(raw), next))
  }

  /** Bytes that `read_letters` turns back into `tag`. */
  function LetterBytes(tag: string): (raw: seq<byte>)
    requires forall i :: 0 <= i < |tag| ==> tag[i] as int < 128
    ensures |raw| == |tag|
  {
    seq(|tag|, i requires 0 <= i < |tag| => tag[i] as int)
  }

  /** Writing a tag's bytes and reading them back gives the tag, for any
      characters below 0x80 (NUL included). */
  lemma LettersRoundTrip(before: seq<byte>, tag: string, after: seq<byte>, policy: ShortReads)
    requires forall i :: 0 <= i < |tag| ==> tag[i] as int < 128
    ensures ReadLetters(Cursor(before + LetterBytes(tag) + after, |before|), |tag|, policy)
            == Ok((tag, Cursor(before + LetterBytes(tag) + after, |before| + |tag|)))
  {
    var data := before + LetterBytes(tag) + after;
    var r := ReadLetters(Cursor(data, |before|), |tag|, policy);
    assert AsciiRun(data, |before|, |tag|) by {
      forall i | |before| <= i < |before| + |tag|
        ensures data[i] < 128
      {
        assert data[i] == LetterBytes(tag)[i - |before|];
      }
    }
    assert r.value.0 == tag by {
      forall i | 0 <= i < |tag|
        ensures r.value.0[i] == tag[i]
      {
        assert data[|before| + i] == tag[i] as int;
      }
    }
  }
}

=== FILE: gpu.dfy ===
/** The GPU admission test of `nv_reader.py`: a GPU is free for a job when
    none of its temperature, power draw, memory use and utilisation exceeds
    its threshold and none of its processes is one of the named programs. */
module Gpu {
  import opened Results

  /** A row of the process table: `[pid, name, memory]`, all as text. */
  datatype Process = Process(pid: string, name: string, memory: string)

  /** A GPU and the readings `parse_gpus` attaches to it. `__init__` sets
      only the number and the process list, so until a reading is attached
      the attribute does not exist. */
  datatype Gpu = Gpu(
    number: int,
    temp: Option<int>,
    watt: Option<int>,
    memory: Option<int>,
    util: Option<int>,
    processes: seq<Process>)

  /** `GPU(number)`. */
  function NewGpu(number: int): (g: Gpu)
    ensures g.number == number && g.processes == []
    ensures g.temp.None? && g.watt.None? && g.memory.None? && g.util.None?
  {
    Gpu(number, None, None, None, None, [])
  }

  /** The keyword arguments of `check`. */
  datatype Limits = Limits(temp: int, watt: int, memory: int, util: int, names: seq<string>)

  const DefaultLimits: Limits := Limits(50, 40, 800, 5, ["relion", "python"])

  /** `check` read an attribute the GPU does not have. */
  datatype GpuError = MissingAttribute(attribute: string)

  /** `pattern` occurs in `text` starting at `k`. */
  predicate OccursAt(pattern: string, text: string, k: nat)
    requires k + |pattern| <= |text|
  {
    text[k..k + |pattern|] == pattern
  }

  /** Python's `pattern in text` on strings. */
  predicate IsSubstring(pattern: string, text: string) {
    exists k: nat | k + |pattern| <= |text| :: OccursAt(pattern, text, k)
  }

  /** `pattern in text`, by trying every start position in turn. */
  method Contains(text: string, pattern: string) returns (found: bool)
    ensures found <==> IsSubstring(pattern, text)
  {
    if |text| < |pattern| {
      return false;
    }
    var k: nat := 0;
    while k + |pattern| <= |text|
      invariant k <= |text| - |pattern| + 1
      invariant forall j: nat :: j < k ==> !OccursAt(pattern, text, j)
    {
      if text[k..k + |pattern|] == pattern {
        assert OccursAt(pattern, text, k);
        return true;
      }
      k := k + 1;
    }
    return false;
  }

  /** One of `names` occurs in the process's name. */
  predicate Blocks(names: seq<string>, p: Process) {
    exists i :: 0 <= i < |names| && IsSubstring(names[i], p.name)
  }

  /** The reading is attached and at most its limit: `check` goes on. */
  predicate Within(reading: Option<int>, limit: int) {
    reading.Some? && reading.value <= limit
  }

  /** The reading is attached and above its limit: `check` returns False. */
  predicate Exceeds(reading: Option<int>, limit: int) {
    reading.Some? && reading.value > limit
  }

  /** Every reading the thresholds need is attached. */
  predicate Measured(g: Gpu) {
    g.temp.Some? && g.watt.Some? && g.memory.Some? && g.util.Some?
  }

  /** The GPU may take a job: each reading is at most its threshold and no
      process is one of the named programs. */
  predicate Admits(g: Gpu, lim: Limits)
    requires Measured(g)
  {
    && Within(g.temp, lim.temp)
    && Within(g.watt, lim.watt)
    && Within(g.memory, lim.memory)
    && Within(g.util, lim.util)
    && forall i :: 0 <= i < |g.processes| ==> !Blocks(lim.names, g.processes[i])
  }

  /** `GPU.check`: the four thresholds in order, each returning False as soon
      as it is exceeded, then every process against every name. A reading
      is only looked at once every earlier one passed, so the first reading
      that is missing or too high decides the outcome. */
  method Check(g: Gpu, lim: Limits) returns (r: Result<bool, GpuError>)
    ensures Measured(g) ==> r.Ok? && (r.value <==> Admits(g, lim))
    ensures r.Err? ==> !Measured(g)
    ensures g.temp.None? ==> r == Err(MissingAttribute("temp"))
    ensures Exceeds(g.temp, lim.temp) ==> r == Ok(false)
    ensures Within(g.temp, lim.temp) && g.watt.None? ==> r == Err(MissingAttribute("watt"))
    ensures Within(g.temp, lim.temp) && Exceeds(g.watt, lim.watt) ==> r == Ok(false)
    ensures Within(g.temp, lim.temp) && Within(g.watt, lim.watt) && g.memory.None? ==>
      r == Err(MissingAttribute("memory"))
    ensures Within(g.temp, lim.temp) && Within(g.watt, lim.watt) && Exceeds(g.memory, lim.memory) ==>
      r == Ok(false)
    ensures (Within(g.temp, lim.temp) && Within(g.watt, lim.watt) && Within(g.memory, lim.memory)
             && g.util.None?) ==> r == Err(MissingAttribute("util"))
    ensures (Within(g.temp, lim.temp) && Within(g.watt, lim.watt) && Within(g.memory, lim.memory)
             && Exceeds(g.util, lim.util)) ==> r == Ok(false)
  {
    if g.temp.None? { return Err(MissingAttribute("temp")); }
    if g.temp.value > lim.temp { return Ok(false); }
    if g.watt.None? { return Err(MissingAttribute("watt")); }
    if g.watt.value > lim.watt { return Ok(false); }
    if g.memory.None? { return Err(MissingAttribute("memory")); }
    if g.memory.value > lim.memory { return Ok(false); }
    if g.util.None? { return Err(MissingAttribute("util")); }
    if g.util.value > lim.util { return Ok(false); }
    var blocked := AnyBlocked(g.processes, lim.names);
    return Ok(!blocked);
  }

  /** The nested loop over processes and names. */
  method AnyBlocked(processes: seq<Process>, names: seq<string>) returns (blocked: bool)
    ensures blocked <==> exists i :: 0 <= i < |processes| && Blocks(names, processes[i])
  {
    var p := 0;
    while p < |processes|
      invariant p <= |processes|
      invariant forall i :: 0 <= i < p ==> !Blocks(names, processes[i])
    {
      var n := 0;
      while n < |names|
        invariant n <= |names|
        invariant forall j :: 0 <= j < n ==> !IsSubstring(names[j], processes[p].name)
      {
        var hit := Contains(processes[p].name, names[n]);
        if hit {
          return true;
        }
        n := n + 1;
      }
      p := p + 1;
    }
    return false;
  }

  /** A GPU fresh from `GPU(number)` cannot be checked: the temperature is
      read first and was never set. */
  lemma NewGpuUnmeasured(number: int)
    ensures !Measured(NewGpu(number))
  {
  }

  /** With the default thresholds a reading equal to its limit passes and
      one above it fails. */
  lemma DefaultThresholdsInclusive(number: int)
    ensures Admits(Gpu(number, Some(50), Some(40), Some(800), Some(5), []), DefaultLimits)
    ensures !Admits(Gpu(number, Some(51), Some(40), Some(800), Some(5), []), DefaultLimits)
    ensures !Admits(Gpu(number, Some(50), Some(40), Some(801), Some(5), []), DefaultLimits)
  {
  }

  /** A RELION job, whose process name merely contains "relion", keeps an
      otherwise idle GPU out under the default names. */
  lemma RelionProcessBlocks(pid: string, memory: string)
    ensures !Admits(Gpu(0, Some(30), Some(20), Some(10), Some(0),
                        [Process(pid, "/usr/bin/relion_refine_mpi", memory)]), DefaultLimits)
  {
    var text := "/usr/bin/relion_refine_mpi";
    var g := Gpu(0, Some(30), Some(20), Some(10), Some(0), [Process(pid, text, memory)]);
    assert OccursAt("relion", text, 9);
    assert IsSubstring(DefaultLimits.names[0], text);
    assert Blocks(DefaultLimits.names, g.processes[0]);
  }

  /** The empty name occurs in every process name, as `'' in s` is always
      true: listing it keeps out any GPU that runs anything. */
  lemma EmptyNameBlocksAll(p: Process)
    ensures Blocks([""], p)
  {
    assert OccursAt("", p.name, 0);
    assert IsSubstring([""][0], p.name);
  }
}

=== FILE: header_check.dfy ===
/** `verify_headers`: four comparisons between the main and the stream
    header (frame count, time-per-frame, pixel dimensions, buffer size).
    `avi_reader.py` reports each as agree or warn; the GitHub copy also
    collects a tag per disagreement, except for the buffer size, and marks
    the file bad when any tag was collected. */
module HeaderCheck {
  import opened Results
  import opened AviErrors
  import opened Timing
  import opened LittleEndian
  import opened FieldReader
  import opened AviHeader

  datatype Verdict = Agrees | Warns

  function Judge(agree: bool): Verdict {
    if agree then Agrees else Warns
  }

  /** The branch each of the four checks of `avi_reader.py` takes. */
  datatype Outcomes = Outcomes(frameNumbers: Verdict, timePerFrame: Verdict, dimensions: Verdict, bufferSize: Verdict)

  /** The checks of the source run to the end: its float inference fails
      only on a zero rate, and the dimension check reads `frame[5]` and
      `frame[6]`. */
  predicate Comparable(h: Headers) {
    h.stream.rate != 0 && |h.stream.frame| >= 7
  }

  /** The corrected checks run to the end: the scale must be non-zero too,
      as a time-per-frame inferred from a zero scale means nothing. */
  predicate Checkable(h: Headers) {
    Comparable(h) && h.stream.scale != 0
  }

  /** The main header's time-per-frame is the one the stream's rate and
      scale imply. */
  predicate TpfConsistent(h: Headers)
    requires h.stream.rate != 0
  {
    IsTruncatedQuotient(MicrosPerSecond * h.stream.scale, h.stream.rate, h.main.tpf)
  }

  /** The main header's width and height are frame words 5 and 6. */
  predicate DimensionsConsistent(h: Headers)
    requires |h.stream.frame| >= 7
  {
    h.main.width == h.stream.frame[5] && h.main.height == h.stream.frame[6]
  }

  /** `verify_headers` of `avi_reader.py` as written: which branch each check
      takes. The inference raises on a zero rate before the dimension check
      reads the frame; a zero scale makes it infer 0. */
  function CompareHeaders(h: Headers): (r: Result<Outcomes, AviError>)
    ensures r.Ok? <==> Comparable(h)
    ensures h.stream.rate == 0 ==> r == Err(RateUndefined(0, h.stream.scale))
    ensures h.stream.rate != 0 && |h.stream.frame| < 7 ==> r == Err(FrameTooShort(|h.stream.frame|))
    ensures r.Ok? ==> (r.value.frameNumbers == Agrees <==> h.main.frameNumber == h.stream.frameNumber)
    ensures r.Ok? && h.stream.scale != 0 ==> (r.value.timePerFrame == Agrees <==> TpfConsistent(h))
    ensures r.Ok? && h.stream.scale == 0 ==> (r.value.timePerFrame == Agrees <==> h.main.tpf == 0)
    ensures r.Ok? ==> (r.value.dimensions == Agrees <==> DimensionsConsistent(h))
    ensures r.Ok? ==> (r.value.bufferSize == Agrees <==> h.main.bufferSize == h.stream.bufferSize)
  {
    var stream := h.stream;
    match InferTpfAsWritten(stream.rate, stream.scale)
    case None => Err(RateUndefined(stream.rate, stream.scale))
    case Some(tpf) =>
      if |stream.frame| < 7 then Err(FrameTooShort(|stream.frame|))
      else
        InferTpfCharacterised(stream.rate, stream.scale, h.main.tpf);
        Ok(Outcomes(
          Judge(stream.frameNumber == h.main.frameNumber),
          Judge(tpf == h.main.tpf),
          Judge(h.main.height == stream.frame[6] && h.main.width == stream.frame[5]),
          Judge(h.main.bufferSize == stream.bufferSize)))
  }

  /** Tags of the GitHub copy, in the order the checks run. */
  datatype Tag = FrameNumbers | TimePerFrame | PixelHeightWidth

  function Rank(t: Tag): nat {
    match t
    case FrameNumbers => 0
    case TimePerFrame => 1
    case PixelHeightWidth => 2
  }

  /** Each tag at most once, in check order. */
  predicate InCheckOrder(tags: seq<Tag>) {
    forall i, j :: 0 <= i < j < |tags| ==> Rank(tags[i]) < Rank(tags[j])
  }

  function TagIf(v: Verdict, t: Tag): seq<Tag> {
    if v == Warns then [t] else []
  }

  /** Every disagreement the three tagged checks find, whatever the caller
      asked to see printed, with a zero scale refused rather than read as a
      time-per-frame of 0. */
  function Disagreements(h: Headers): (r: Result<seq<Tag>, AviError>)
    ensures r.Ok? <==> Checkable(h)
    ensures h.stream.rate == 0 || h.stream.scale == 0 ==> r == Err(RateUndefined(h.stream.rate, h.stream.scale))
    ensures h.stream.scale != 0 && r.Err? ==> CompareHeaders(h) == Err(r.error)
    ensures r.Ok? ==> (FrameNumbers in r.value <==> h.main.frameNumber != h.stream.frameNumber)
    ensures r.Ok? ==> (TimePerFrame in r.value <==> !TpfConsistent(h))
    ensures r.Ok? ==> (PixelHeightWidth in r.value <==> !DimensionsConsistent(h))
    ensures r.Ok? ==> InCheckOrder(r.value)
  {
    if h.stream.scale == 0 then Err(RateUndefined(h.stream.rate, 0))
    else
      var o :- CompareHeaders(h);
      Ok(TagIf(o.frameNumbers, FrameNumbers) + TagIf(o.timePerFrame, TimePerFrame) + TagIf(o.dimensions, PixelHeightWidth))
  }

  /** What `verify_headers` leaves behind: the tag list and whether the
      file went into `bad_files`. */
  datatype Report = Report(tags: seq<Tag>, flagged: bool)

  /** `verify_headers(v)` of the GitHub copy as written: each tag is
      appended inside the `v == True` branch that prints the warning. */
  function VerifyHeadersAsWritten(h: Headers, verbose: bool): (r: Result<Report, AviError>)
    ensures r.Ok? <==> Comparable(h)
    ensures r.Ok? ==> (r.value.flagged <==> r.value.tags != [])
    ensures r.Ok? && !verbose ==> r.value == Report([], false)
    ensures r.Ok? && verbose ==> (FrameNumbers in r.value.tags <==> h.main.frameNumber != h.stream.frameNumber)
    ensures r.Ok? && verbose ==>
      (TimePerFrame in r.value.tags <==> InferTpfAsWritten(h.stream.rate, h.stream.scale) != Some(h.main.tpf))
    ensures r.Ok? && verbose ==> (PixelHeightWidth in r.value.tags <==> !DimensionsConsistent(h))
  {
    var o :- CompareHeaders(h);
    var tags :=
      (if verbose then TagIf(o.frameNumbers, FrameNumbers) else [])
      + (if verbose then TagIf(o.timePerFrame, TimePerFrame) else [])
      + (if verbose then TagIf(o.dimensions, PixelHeightWidth) else []);
    Ok(Report(tags, |tags| != 0))
  }

  /** `verify_headers` with the tags collected on both settings of `v`, as
      the final `bad_files` decision evidently intends. */
  function VerifyHeaders(h: Headers): (r: Result<Report, AviError>)
    ensures r.Ok? <==> Checkable(h)
    ensures r.Ok? ==> (r.value.flagged <==>
      h.main.frameNumber != h.stream.frameNumber || !TpfConsistent(h) || !DimensionsConsistent(h))
    ensures r.Ok? ==> r.value.tags == Disagreements(h).value
  {
    var tags :- Disagreements(h);
    Ok(Report(tags, |tags| != 0))
  }

  /** With `v=True` the source already collects every disagreement, unless
      the scale is zero: then it compares against an inferred 0 where the
      corrected check refuses. */
  lemma VerboseReportsAll(h: Headers)
    ensures h.stream.scale != 0 ==> VerifyHeadersAsWritten(h, true) == VerifyHeaders(h)
    ensures h.stream.scale == 0 ==> VerifyHeaders(h).Err? && (VerifyHeadersAsWritten(h, true).Ok? <==> Comparable(h))
  {
  }

  /** A file whose frame counts disagree: the corrected check flags it, the
      source called with `v=False` (as its conversion loop calls it) does not. */
  lemma QuietMissesDisagreement(h: Headers)
    requires Checkable(h) && h.main.frameNumber != h.stream.frameNumber
    ensures VerifyHeaders(h).value.flagged
    ensures !VerifyHeadersAsWritten(h, false).value.flagged
  {
    assert FrameNumbers in Disagreements(h).value;
  }

  /** The buffer-size check only prints: changing either buffer size never
      changes the tags. */
  lemma BufferSizeNeverTagged(h: Headers, mainBuffer: int, streamBuffer: int)
    ensures Disagreements(Headers(h.main.(bufferSize := mainBuffer), h.stream.(bufferSize := streamBuffer)))
            == Disagreements(h)
  {
  }

  /** Each tag depends only on its own pair of fields: two headers that
      agree on that pair agree on that tag. */
  lemma TagsIndependent(h1: Headers, h2: Headers)
    requires Checkable(h1) && Checkable(h2)
    ensures h1.main.frameNumber == h2.main.frameNumber && h1.stream.frameNumber == h2.stream.frameNumber ==>
      (FrameNumbers in Disagreements(h1).value <==> FrameNumbers in Disagreements(h2).value)
    ensures h1.main.tpf == h2.main.tpf && h1.stream.rate == h2.stream.rate && h1.stream.scale == h2.stream.scale ==>
      (TimePerFrame in Disagreements(h1).value <==> TimePerFrame in Disagreements(h2).value)
    ensures h1.main.width == h2.main.width && h1.main.height == h2.main.height
            && h1.stream.frame[5] == h2.stream.frame[5] && h1.stream.frame[6] == h2.stream.frame[6] ==>
      (PixelHeightWidth in Disagreements(h1).value <==> PixelHeightWidth in Disagreements(h2).value)
  {
  }

  /** Headers on which all four checks agree. */
  predicate Consistent(h: Headers) {
    && Checkable(h)
    && h.main.frameNumber == h.stream.frameNumber
    && TpfConsistent(h)
    && DimensionsConsistent(h)
    && h.main.bufferSize == h.stream.bufferSize
  }

  /** Consistent headers pass every check and are not flagged; changing
      only the main frame count then yields exactly the frame-number tag. */
  lemma OnePerturbationOneTag(h: Headers, frameNumber: int)
    requires Consistent(h) && frameNumber != h.stream.frameNumber
    ensures CompareHeaders(h) == Ok(Outcomes(Agrees, Agrees, Agrees, Agrees))
    ensures VerifyHeaders(h) == Ok(Report([], false))
    ensures Disagreements(Headers(h.main.(frameNumber := frameNumber), h.stream)) == Ok([FrameNumbers])
  {
    var h' := Headers(h.main.(frameNumber := frameNumber), h.stream);
    assert TpfConsistent(h') && DimensionsConsistent(h');
    assert CompareHeaders(h') == Ok(Outcomes(Warns, Agrees, Agrees, Agrees));
    assert [FrameNumbers] + [] + [] == [FrameNumbers];
    assert Disagreements(h') == Ok([FrameNumbers] + [] + []);
  }

  /** A 24 fps stream (rate 24, scale 1) whose other fields agree: the
      truncating inference gives 41666 µs, so a main header storing 41666
      passes, and one storing anything else, the rounded 41667 included,
      gets the time-per-frame tag and no other. */
  lemma TwentyFourFps(h: Headers)
    requires h.stream.rate == 24 && h.stream.scale == 1
    requires |h.stream.frame| == 7 && DimensionsConsistent(h)
    requires h.main.frameNumber == h.stream.frameNumber
    ensures h.main.tpf == 41666 ==> Disagreements(h) == Ok([])
    ensures h.main.tpf != 41666 ==> Disagreements(h) == Ok([TimePerFrame])
  {
    InferTpfTruncates();
    InferTpfCharacterised(24, 1, h.main.tpf);
    var tpfVerdict := if h.main.tpf == 41666 then Agrees else Warns;
    assert CompareHeaders(h) == Ok(Outcomes(Agrees, tpfVerdict, Agrees, CompareHeaders(h).value.bufferSize));
    assert [] + TagIf(tpfVerdict, TimePerFrame) + [] == TagIf(tpfVerdict, TimePerFrame);
    assert Disagreements(h) == Ok([] + TagIf(tpfVerdict, TimePerFrame) + []);
  }

  /** Under numpy's float rules a zero scale makes the inferred
      time-per-frame 0, so a main header storing 0 "agrees" and the source
      runs every check; the model refuses to infer anything from a zero
      scale. */
  lemma ZeroScaleAgreesAsWritten(h: Headers)
    requires h.stream.rate != 0 && h.stream.scale == 0 && h.main.tpf == 0
    ensures InferTpfAsWritten(h.stream.rate, h.stream.scale) == Some(h.main.tpf)
    ensures |h.stream.frame| >= 7 ==> CompareHeaders(h).Ok? && CompareHeaders(h).value.timePerFrame == Agrees
    ensures Disagreements(h) == Err(RateUndefined(h.stream.rate, 0))
  {
  }

  /** A 160-byte file, zero except for a scale of 1 and a rate of 25. As
      written it opens: the frame read finds four bytes, a whole word, so
      `frame` holds one word, and the dimension check then fails on
      `frame[6]`. With short reads rejected the same file does not open. */
  method ShortFrameSlipsThrough() returns (asWritten: Result<Headers, AviError>, check: Result<Outcomes, AviError>,
                                           model: Result<Headers, AviError>)
    ensures asWritten.Ok? && |asWritten.value.stream.frame| == 1
    ensures check == Err(FrameTooShort(1))
    ensures model.Err? && model.error.ShortRead?
  {
    var file: seq<byte> := seq(160, i => if i == 128 then 1 else if i == 132 then 25 else 0);
    assert AsciiRun(file, StreamHeaderOffset, 8);
    assert TagBytesAscii(file, StreamHeaderOffset);
    assert file[128..132] == [1, 0, 0, 0] && file[132..136] == [25, 0, 0, 0];
    asWritten := ReadHeader(file, WarnOnly);
    assert Available(Cursor(file, 156), 28) == 4;
    check := CompareHeaders(asWritten.value);
    model := ReadHeader(file, Reject);
  }
}

=== FILE: little_endian.dfy ===
/** Little-endian two's-complement 32-bit words, as numpy's `frombuffer(..., int32)`
    decodes them on a little-endian machine. */
module LittleEndian {

  type byte = b: int | 0 <= b < 256

  const TwoTo31: int := 0x8000_0000
  const TwoTo32: int := 0x1_0000_0000

  predicate IsInt32(x: int) {
    -TwoTo31 <= x < TwoTo31
  }

  /** The signed value of four bytes, least significant first. */
  function Int32FromBytes(b: seq<byte>): (x: int)
    requires |b| == 4
    ensures IsInt32(x)
    ensures x < 0 <==> b[3] >= 128
  {
    var u: int := b[0] as int + 256 * (b[1] as int) + 65536 * (b[2] as int) + 16777216 * (b[3] as int);
    if u < TwoTo31 then u else u - TwoTo32
  }

  /** The four bytes numpy writes for a signed 32-bit value. */
  function Int32ToBytes(x: int): (b: seq<byte>)
    requires IsInt32(x)
    ensures |b| == 4
    ensures Int32FromBytes(b) == x
  {
    var u: int := if x < 0 then x + TwoTo32 else x;
    UnsignedDigits(u);
    [u % 256, (u / 256) % 256, (u / 65536) % 256, u / 16777216]
  }

  /** The base-256 digits of an unsigned 32-bit value recombine to it. */
  lemma UnsignedDigits(u: int)
    requires 0 <= u < TwoTo32
    ensures 0 <= u / 16777216 < 256
    ensures u % 256 + 256 * ((u / 256) % 256) + 65536 * ((u / 65536) % 256) + 16777216 * (u / 16777216) == u
  {
    var q1 := u / 256;
    var q2 := q1 / 256;
    var q3 := q2 / 256;
    assert u == 256 * q1 + u % 256;
    assert q1 == 256 * q2 + q1 % 256;
    assert q2 == 256 * q3 + q2 % 256;
    assert q2 == u / 65536;
    assert q3 == u / 16777216;
  }

  /** Decoding loses nothing: the bytes are recovered from the value. */
  lemma BytesRoundTrip(b: seq<byte>)
    requires |b| == 4
    ensures Int32ToBytes(Int32FromBytes(b)) == b
  {
    var r2: int := b[2] as int + 256 * (b[3] as int);
    var r1: int := b[1] as int + 256 * r2;
    var u: int := b[0] as int + 256 * r1;
    var x := Int32FromBytes(b);
    assert (if x < 0 then x + TwoTo32 else x) == u;
    SplitDigit(u, b[0], r1);
    SplitDigit(r1, b[1], r2);
    SplitDigit(r2, b[2], b[3]);
    assert u / 65536 == r2 by {
      assert u / 65536 == (u / 256) / 256;
    }
    assert u / 16777216 == b[3] by {
      assert u / 16777216 == (u / 65536) / 256;
    }
  }

  /** Splitting off the lowest base-256 digit. */
  lemma SplitDigit(u: int, low: int, high: int)
    requires 0 <= low < 256 && 0 <= high
    requires u == low + 256 * high
    ensures u % 256 == low && u / 256 == high
  {
  }

  /** The word stored at `offset`. */
  function WordAt(data: seq<byte>, offset: nat): int
    requires offset + 4 <= |data|
  {
    Int32FromBytes(data[offset..offset + 4])
  }

  /** numpy's `frombuffer(bytes, int32)`: one word per four bytes, in order. */
  function FromBuffer(bytes: seq<byte>): (words: seq<int>)
    requires |bytes| % 4 == 0
    ensures 4 * |words| == |bytes|
    ensures forall i :: 0 <= i < |words| ==> words[i] == WordAt(bytes, 4 * i)
    decreases |bytes|
  {
    if |bytes| == 0 then []
    else
      var rest := FromBuffer(bytes[4..]);
      assert forall i :: 0 <= i < |rest| ==> bytes[4..][4 * i..4 * i + 4] == bytes[4 * (i + 1)..4 * (i + 1) + 4];
      [Int32FromBytes(bytes[..4])] + rest
  }

  predicate AllInt32(words: seq<int>) {
    forall i :: 0 <= i < |words| ==> IsInt32(words[i])
  }

  /** The bytes of `words`, each written as four little-endian bytes. */
  function ToBuffer(words: seq<int>): (bytes: seq<byte>)
    requires AllInt32(words)
    ensures |bytes| == 4 * |words|
  {
    if |words| == 0 then [] else Int32ToBytes(words[0]) + ToBuffer(words[1..])
  }

  /** Word `i` of an encoded buffer is the `i`-th value written. */
  lemma {:induction false} ToBufferWordAt(words: seq<int>, i: nat)
    requires AllInt32(words)
    requires i < |words|
    ensures WordAt(ToBuffer(words), 4 * i) == words[i]
  {
    var bytes := ToBuffer(words);
    if i == 0 {
      assert bytes[0..4] == Int32ToBytes(words[0]);
    } else {
      var rest := ToBuffer(words[1..]);
      ToBufferWordAt(words[1..], i - 1);
      assert bytes[4 * i..4 * i + 4] == rest[4 * (i - 1)..4 * (i - 1) + 4];
    }
  }

  /** Decoding an encoded buffer gives back the values written. */
  lemma BufferRoundTrip(words: seq<int>)
    requires AllInt32(words)
    ensures FromBuffer(ToBuffer(words)) == words
  {
    var back := FromBuffer(ToBuffer(words));
    forall i | 0 <= i < |words|
      ensures back[i] == words[i]
    {
      ToBufferWordAt(words, i);
    }
  }

  /** Bytes appended after a word do not change it. */
  lemma WordAtPrefix(bytes: seq<byte>, tail: seq<byte>, offset: nat)
    requires offset + 4 <= |bytes|
    ensures WordAt(bytes + tail, offset) == WordAt(bytes, offset)
  {
    assert (bytes + tail)[offset..offset + 4] == bytes[offset..offset + 4];
  }

  /** Word `i` of a buffer embedded after `prefix` is the `i`-th value written. */
  lemma WordInBuffer(prefix: seq<byte>, words: seq<int>, tail: seq<byte>, i: nat)
    requires AllInt32(words) && i < |words|
    ensures WordAt(prefix + (ToBuffer(words) + tail), |prefix| + 4 * i) == words[i]
  {
    WordAtAppend(prefix, ToBuffer(words) + tail, 4 * i);
    WordAtPrefix(ToBuffer(words), tail, 4 * i);
    ToBufferWordAt(words, i);
  }

  /** A word inside a concatenation is read from the part that holds it. */
  lemma WordAtAppend(prefix: seq<byte>, rest: seq<byte>, offset: nat)
    requires offset + 4 <= |rest|
    ensures WordAt(prefix + rest, |prefix| + offset) == WordAt(rest, offset)
  {
    assert (prefix + rest)[|prefix| + offset..|prefix| + offset + 4] == rest[offset..offset + 4];
  }
}

=== FILE: results.dfy ===
/** Failure-compatible wrappers shared by every module of the model. */
module Results {

  /** A value that may be absent, e.g. a time-per-frame that cannot be inferred. */
  datatype Option<+T> = None | Some(value: T)

  /** Either a value or the reason it could not be produced; usable with `:-`. */
  datatype Result<+T, +E> = Ok(value: T) | Err(error: E) {

    predicate IsFailure() {
      Err?
    }

    function PropagateFailure<U>(): Result<U, E>
      requires Err?
    {
      Err(error)
    }

    function Extract(): T
      requires Ok?
    {
      value
    }
  }
}

/** The ways opening or checking an AVI file can fail. */
module AviErrors {

  datatype AviError =
      /** Fewer bytes were available at `offset` than the field needs (the model's policy). */
    | ShortRead(offset: nat, wanted: nat, got: nat)
      /** numpy's frombuffer refuses a buffer whose length is not a multiple of 4. */
    | PartialWord(offset: nat, got: nat)
      /** `values[0]` on an empty array: a single word was asked for past the end of the file. */
    | NoValue(offset: nat)
      /** A tag byte of 0x80 or above is a negative np.byte, which `chr` refuses. */
    | NonAsciiByte(offset: nat)
      /** The time-per-frame cannot be inferred from this rate and scale. */
    | RateUndefined(rate: int, scale: int)
      /** The stream header's frame array has no entries 5 and 6. */
    | FrameTooShort(length: nat)
}

=== FILE: timing.dfy ===
/** The time-per-frame a stream header implies: `int(1000000 / (rate / scale))`. */
module Timing {
  import opened Results

  const MicrosPerSecond: int := 1_000_000

  function Abs(x: int): nat {
    if x < 0 then -x else x
  }

  /** `q` is `n / d` with the fraction dropped, as Python's `int()` drops it:
      `q * d` lies between 0 and `n`, less than one `d` away from `n`. */
  predicate IsTruncatedQuotient(n: int, d: int, q: int)
    requires d != 0
  {
    var p := q * d;
    (if n >= 0 then 0 <= p <= n else n <= p <= 0) && Abs(n - p) < Abs(d)
  }

  /** Division rounding toward zero (Dafny's own `/` is Euclidean). */
  function TruncDiv(n: int, d: int): (q: int)
    requires d != 0
    ensures IsTruncatedQuotient(n, d, q)
  {
    var a := Abs(n) / Abs(d);
    TruncDivMagnitude(n, d);
    if (n < 0) == (d < 0) then a else -a
  }

  lemma TruncDivMagnitude(n: int, d: int)
    requires d != 0
    ensures var a := Abs(n) / Abs(d);
            IsTruncatedQuotient(n, d, if (n < 0) == (d < 0) then a else -a)
  {
    var D := Abs(d);
    var a := Abs(n) / D;
    var m := Abs(n) % D;
    EuclideanSplit(Abs(n), D);
    MulNonNegative(a, D);
    var q := if (n < 0) == (d < 0) then a else -a;
    SignedProduct(a, d, q, n < 0);
    TruncatedFromParts(n, d, q, a * D, m);
  }

  /** A quotient whose product with `d` has `n`'s sign and leaves a remainder
      below `|d|` is the truncated one. */
  lemma TruncatedFromParts(n: int, d: int, q: int, p: int, m: int)
    requires d != 0
    requires Abs(n) == p + m && 0 <= m < Abs(d) && 0 <= p
    requires q * d == if n < 0 then -p else p
    ensures IsTruncatedQuotient(n, d, q)
  {
  }

  /** Dafny's `/` and `%` on naturals split `x` into whole `y`s and a remainder. */
  lemma EuclideanSplit(x: nat, y: nat)
    requires y > 0
    ensures 0 <= x / y && x == (x / y) * y + x % y && 0 <= x % y < y
  {
  }

  /** Negating the quotient when exactly one operand is negative negates the product. */
  lemma SignedProduct(a: int, d: int, q: int, negative: bool)
    requires q == if negative == (d < 0) then a else -a
    ensures q * d == if negative then -(a * Abs(d)) else a * Abs(d)
  {
    MulSigns(a, d);
  }

  lemma MulSigns(x: int, y: int)
    ensures (-x) * y == -(x * y) && x * (-y) == -(x * y) && (-x) * (-y) == x * y
  {
  }

  lemma MulNonNegative(a: int, b: int)
    requires 0 <= a && 0 <= b
    ensures 0 <= a * b
  {
  }

  /** At most one integer is the truncated quotient, so the predicate defines it. */
  lemma TruncatedQuotientUnique(n: int, d: int, q1: int, q2: int)
    requires d != 0
    requires IsTruncatedQuotient(n, d, q1) && IsTruncatedQuotient(n, d, q2)
    ensures q1 == q2
  {
    var p1 := q1 * d;
    var p2 := q2 * d;
    assert Abs(p1 - p2) < Abs(d);
    if q1 != q2 {
      var k := q1 - q2;
      assert p1 - p2 == k * d by {
        MulDistributes(q1, q2, d);
      }
      MulAbsAtLeast(k, d);
      assert false;
    }
  }

  lemma MulDistributes(x: int, y: int, d: int)
    ensures x * d - y * d == (x - y) * d
  {
  }

  lemma MulAbsAtLeast(k: int, d: int)
    requires k != 0
    ensures Abs(k * d) >= Abs(d)
  {
    var K := Abs(k);
    var D := Abs(d);
    AbsMul(k, d);
    assert (K - 1) * D == K * D - D by {
      MulDistributes(K, 1, D);
    }
    MulNonNegative(K - 1, D);
  }

  lemma AbsMul(x: int, y: int)
    ensures Abs(x * y) == Abs(x) * Abs(y)
  {
    MulSigns(x, y);
    if x < 0 && y >= 0 {
      MulNonNegative(-x, y);
    } else if x >= 0 && y < 0 {
      MulNonNegative(x, -y);
    } else if x < 0 {
      MulNonNegative(-x, -y);
    } else {
      MulNonNegative(x, y);
    }
  }

  /** The inferred time-per-frame in microseconds: `1000000 / (rate / scale)`
      truncated toward zero. It is undefined when either value is zero. */
  function InferTpf(rate: int, scale: int): (r: Option<int>)
    ensures r.None? <==> rate == 0 || scale == 0
    ensures r.Some? ==> IsTruncatedQuotient(MicrosPerSecond * scale, rate, r.value)
  {
    if rate == 0 || scale == 0 then None
    else Some(TruncDiv(MicrosPerSecond * scale, rate))
  }

  /** The same expression under numpy's float rules: `rate / 0` is an
      infinity, `1000000 / inf` is 0.0 and `int(0.0)` is 0, while `rate == 0`
      leads to `int(inf)` or `int(nan)`, which raise. */
  function InferTpfAsWritten(rate: int, scale: int): (r: Option<int>)
    ensures r.None? <==> rate == 0
    ensures rate != 0 && scale == 0 ==> r == Some(0)
    ensures scale != 0 ==> r == InferTpf(rate, scale)
  {
    if rate == 0 then None
    else if scale == 0 then Some(0)
    else InferTpf(rate, scale)
  }

  /** The inference yields `t` exactly when rate and scale are non-zero and
      `t` is the truncated quotient of `1000000 * scale` by `rate`. */
  lemma InferTpfCharacterised(rate: int, scale: int, t: int)
    ensures InferTpf(rate, scale) == Some(t) <==>
            rate != 0 && scale != 0 && IsTruncatedQuotient(MicrosPerSecond * scale, rate, t)
  {
    if rate != 0 && scale != 0 && IsTruncatedQuotient(MicrosPerSecond * scale, rate, t) {
      TruncatedQuotientUnique(MicrosPerSecond * scale, rate, t, InferTpf(rate, scale).value);
    }
  }

  /** For a positive rate and scale the inference is plain integer division
      of `1000000 * scale` by `rate`. */
  lemma PositiveRateDivides(rate: int, scale: int)
    requires rate > 0 && scale > 0
    ensures InferTpf(rate, scale) == Some(MicrosPerSecond * scale / rate)
  {
    var n := MicrosPerSecond * scale;
    var q := n / rate;
    assert n == q * rate + n % rate;
    MulNonNegative(q, rate);
    assert IsTruncatedQuotient(n, rate, q);
    TruncatedQuotientUnique(n, rate, q, InferTpf(rate, scale).value);
  }

  /** The fraction is dropped, not rounded: 24 frames per second give
      41666 microseconds (41666.67 would round to 41667). */
  lemma InferTpfTruncates()
    ensures InferTpf(24, 1) == Some(41666)
    ensures InferTpf(-24, 1) == Some(-41666)
  {
    PositiveRateDivides(24, 1);
    TruncatedQuotientUnique(MicrosPerSecond * 1, -24, -41666, InferTpf(-24, 1).value);
  }
}
